=== FILE: README.md ===
# Rigid-body combination controller: a Dafny model

This project models the player-state machine of `CombinationController_RB`. That is the
Unity component that combines first-person and third-person locomotion on a rigid body.
Engine calls are removed. What is left is an immutable `PlayerState` record with these fields:

- the camera style
- the jump gate, ground, sprint and crouch flags
- the crouch interpolation (its flag, timer and collider height)
- the first-person pitch
- the buffered look and move inputs

Every input callback and every per-frame helper is a pure transition on that record.
Engine data enters the transitions as arguments:

- the ground probe's answer
- the frame and physics-step times
- the orientation basis
- the rigid body's current velocity

Scalars are exact reals. Vectors are real triples. The engine's `Clamp` is the usual
min/max clamp. Its `Lerp` clamps its parameter to [0,1].

Files and modules:

- `numerics.dfy` (`Numerics`): clamp, unit clamp and clamped linear interpolation.
- `vectors.dfy` (`Vectors`): 2- and 3-component vectors.
- `camera_style.dfy` (`CameraStyles`): the four camera styles, their integer values, and the wrap-around increment.
- `controller.dfy` (`Controller`): the tunables, the state, one function per callback and helper, the physics-step and frame dispatch, the reachable-state predicate `Consistent`, and the lemmas about single transitions.
- `trace.dfy` (`Trace`): the controller driven by any interleaving of callbacks, frames and physics steps. It proves invariants over such runs, with the look callback as written or corrected, and shows what the as-written callback leads to.

## Model

| member | source | states |
|---|---|---|
| Numerics.Clamp | Assets/Scripts/CombinationController_RB.cs:140 | with min ≤ max the result lies in [min, max]; an in-range value is returned unchanged; the result is always the value or one of the bounds |
| Numerics.Clamp01 | Assets/Scripts/CombinationController_RB.cs:156 | the interpolation parameter is forced into [0,1], unchanged inside it, 1 above it, 0 below it |
| Numerics.Lerp | Assets/Scripts/CombinationController_RB.cs:156-158 | parameter ≤ 0 gives the start, ≥ 1 gives the target exactly, and every result lies between start and target and is no farther from the target than the start was |
| CameraStyles.Index | Assets/Scripts/CombinationController_RB.cs:60-66 | each style's integer value is below the number of styles (4) |
| CameraStyles.FromIndex | Assets/Scripts/CombinationController_RB.cs:60-66 | every value below 4 names exactly the style with that value |
| CameraStyles.Next | Assets/Scripts/CombinationController_RB.cs:186-187 | increment-then-reset-at-4 is the same as stepping the value to (i+1) mod 4, and always changes the style |
| CameraStyles.CycleIndex | Assets/Scripts/CombinationController_RB.cs:184-187 | after n changes the style's value is (i+n) mod 4 |
| CameraStyles.CycleWraps | Assets/Scripts/CombinationController_RB.cs:186-187 | four changes return to the starting style, and n+4 changes equal n changes |
| CameraStyles.CycleFromInitial | Assets/Scripts/CombinationController_RB.cs:73 | from the wake-up style Basic_TP, n changes give value (1+n) mod 4, and the change after Topdown_TP is FirstPerson |
| Controller.Awake | Assets/Scripts/CombinationController_RB.cs:36-74 | the woken-up controller is in Basic_TP, ready to jump, grounded, neither sprinting nor crouching. No crouch interpolation runs and the timer is 0. Pitch is 0, the look and move buffers are zero, and the collider keeps the height the scene gave it |
| Controller.OnChangeCamera | Assets/Scripts/CombinationController_RB.cs:182-196 | only the performed phase advances the style, to (i+1) mod 4; the other phases change nothing; no other field ever changes |
| Controller.OnJump | Assets/Scripts/CombinationController_RB.cs:205-213 | the jump fires if and only if grounded and ready; firing clears only the ready flag; not firing leaves the state unchanged |
| Controller.ResetJump | Assets/Scripts/CombinationController_RB.cs:174-177 | the gate is armed afterwards and nothing else changes |
| Controller.JumpGate | Assets/Scripts/CombinationController_RB.cs:205-213 | a fired gate refuses the next request; a refused request is a no-op; after a re-arm the next request fires exactly when grounded |
| Controller.ResetJumpIdempotent | Assets/Scripts/CombinationController_RB.cs:174-177 | re-arming twice equals re-arming once |
| Controller.OnCrouch | Assets/Scripts/CombinationController_RB.cs:198-203 | the crouch flag flips, the interpolation restarts with a zero timer, nothing else changes |
| Controller.CrouchTwice | Assets/Scripts/CombinationController_RB.cs:198-203 | two crouch events restore the crouch flag and leave a restarted interpolation |
| Controller.OnSprint | Assets/Scripts/CombinationController_RB.cs:238-241 | the sprint flag flips and nothing else changes |
| Controller.SprintInvolution | Assets/Scripts/CombinationController_RB.cs:238-241 | two sprint events give back the original state |
| Controller.OnMovement | Assets/Scripts/CombinationController_RB.cs:229-236 | the stored move vector has stick x as x, stick y as z, and a zero vertical component |
| Controller.LastMovementWins | Assets/Scripts/CombinationController_RB.cs:229-236 | the move input is one slot: a later reading fully replaces an earlier one |
| Controller.OnLookAsWritten | Assets/Scripts/CombinationController_RB.cs:215-227 | the look callback as written leaves every modelled field unchanged, the look buffer included |
| Controller.OnLook | Assets/Scripts/CombinationController_RB.cs:45-46 | corrected callback: the look buffer (camMovementX, camMovementY) holds the latest stick reading |
| Controller.ProcessCrouch | Assets/Scripts/CombinationController_RB.cs:148-166 | with no interpolation running, nothing changes. If scaled progress exceeds 1, the interpolation stops, the timer is 0 and the height is exactly 1 (crouching) or 2 (standing). Otherwise the timer grows by the frame time. In every case the new height lies between the old height and the target, never overshoots, and only the three crouch fields change |
| Controller.ProcessLook | Assets/Scripts/CombinationController_RB.cs:137-141 | with min ≤ max the pitch ends in [minClampX, maxClampX] whatever the input and step time; an in-range turned pitch is kept exactly; only the pitch changes |
| Controller.ProcessMovement | Assets/Scripts/CombinationController_RB.cs:112-135 | the written velocity keeps the body's vertical component. A move input the engine's vector comparison takes for zero gives zero horizontal velocity: squared length below 1e-10, that is length below 1e-5. So does any input with zero x and z |
| Controller.FixedUpdate | Assets/Scripts/CombinationController_RB.cs:95-101 | outside first person the physics step changes no state; in first person the look runs and leaves the pitch in its range; only the pitch can change; an in-range pitch stays in range; the written velocity is what the movement step computes from the state before the look, so looking does not affect movement, and its vertical component is kept |
| Controller.Update | Assets/Scripts/CombinationController_RB.cs:103-108 | the frame stores the ground probe's answer and otherwise changes only the crouch fields. With no interpolation running, nothing else changes. A running interpolation either ends (timer 0, height exactly the target) once the scaled progress passes 1, or keeps running with the timer advanced by the frame time |
| Controller.MovementForgetsHorizontal | Assets/Scripts/CombinationController_RB.cs:134 | the previous horizontal velocity has no influence on the new one; only the vertical component is carried over |
| Controller.SprintScalesVelocity | Assets/Scripts/CombinationController_RB.cs:114-116 | sprint speed is used exactly when sprinting: for the same input, the sprinting horizontal velocity is the walking one times sprintSpeed/speed |
| Controller.MoveFollowsStick | Assets/Scripts/CombinationController_RB.cs:121-134 | after a move reading at least as long as the tolerance, stick y drives orientation forward and stick x drives orientation right, at the selected speed. A shorter reading gives zero horizontal velocity. The vertical velocity is kept either way |
| Controller.LookFollowsStick | Assets/Scripts/CombinationController_RB.cs:139-140 | with the stick buffered, the pitch becomes clamp(pitch − stick.y·dt·ySensitivity) |
| Controller.LookAtRest | Assets/Scripts/CombinationController_RB.cs:139-140 | with an empty look buffer, a look step leaves an in-range pitch unchanged |
| Controller.SettleCrouch | Assets/Scripts/CombinationController_RB.cs:148-166 | from any state satisfying the crouch part of the invariant (the pitch and move input are not read), repeated frames of a fixed positive length end a running interpolation after at least one frame. The timer ends at 0, the crouch flag is unchanged, and the height is exactly the target. With no interpolation running, nothing happens |
| Trace.AwakeConsistent | Assets/Scripts/CombinationController_RB.cs:36-44 | the woken-up controller satisfies the reachable-state invariant when its initial pitch 0 is in range |
| Trace.RunConsistent | Assets/Scripts/CombinationController_RB.cs:95-108 | any interleaving of callbacks, frames and physics steps, with the look callback as written or corrected, keeps these facts: crouch timer ≥ 0; timer 0 while no interpolation runs; scaled progress ≤ 1 while one does; move input horizontal; pitch within its clamp range |
| Trace.RunKeepsHeight | Assets/Scripts/CombinationController_RB.cs:155-158 | a collider height between 1 and 2 stays between 1 and 2 along any run, with either look callback |
| Trace.AtMostOneJumpPerRearm | Assets/Scripts/CombinationController_RB.cs:205-213 | along any run with either look callback: between two re-arms at most one jump fires, and none if the gate starts shut; a shut gate stays shut |
| Trace.RunCameraStyle | Assets/Scripts/CombinationController_RB.cs:182-196 | after any run with either look callback, the style is the start advanced once per performed change-camera callback; other phases and all other ticks leave it alone |
| Trace.CameraStyleFromAwake | Assets/Scripts/CombinationController_RB.cs:73 | from wake-up, with either look callback, n performed change-camera callbacks show style (1+n) mod 4 |
| Trace.RunSprintParity | Assets/Scripts/CombinationController_RB.cs:238-241 | after any run with either look callback, sprinting equals the start flipped once per sprint callback, so it changes exactly when the count is odd |
| Trace.PitchFrozenAsWritten | Assets/Scripts/CombinationController_RB.cs:215-227 | from an empty look buffer and an in-range pitch, no run with the look callback as written changes the pitch or fills the look buffer |
| Trace.LookScenarioAsWritten | Assets/Scripts/CombinationController_RB.cs:137-145 | as written, three style changes to first person, stick (0,1) and one 0.02 s step leave the pitch at 0 |
| Trace.LookScenarioCorrected | Assets/Scripts/CombinationController_RB.cs:137-141 | with the stick stored, the same scenario tilts the pitch to −0.6 (1 · 0.02 · 30) |

## Findings

| source | as written | input that shows it | evidently intended | confidence | as-written member | corrected member |
|---|---|---|---|---|---|---|
| Assets/Scripts/CombinationController_RB.cs:215-227 | `OnLook` only re-aims `orientation` in the third-person styles. It never stores the stick in `camMovementX`/`camMovementY`, and nothing else writes them. So `ProcessLook` always turns by 0 | wake up, change camera three times (to FirstPerson), look stick (0, 1), one 0.02 s physics step: pitch stays 0 | store the stick, as `TP_PlayerMovement.OnLook` does (Assets/Scripts/Third Person/TP_PlayerMovement.cs:153-157), giving pitch −0.6 | high; not executed | Trace.PitchFrozenAsWritten | Controller.OnLook |

The runs in `Trace` take the look callback as a parameter: `AsWritten` (the component's own callback) or `Corrected` (one that stores the stick). Every run-level invariant is proved for both.
- With `AsWritten`, `Trace.PitchFrozenAsWritten` and `Trace.LookScenarioAsWritten` show that an in-range pitch never moves.
- With `Corrected`, `Controller.LookFollowsStick` and `Trace.LookScenarioCorrected` show that the pitch does move.

## Left out

- Yaw (`transform.Rotate`, line 143) and the camera's local rotation (`Quaternion.Euler`, line 141): rotation maths over engine types. Only the pitch angle is modelled.
- Body-mesh facing (`Vector3.Slerp` at line 126, the Combat snap at lines 131-132) and the orientation updates in `OnLook` (lines 217-226): these use normalisation and spherical interpolation over engine transforms. The orientation basis is an input to the physics step.
- The jump impulse (`rb.AddForce`, line 210) and the rigid-body integrator: external physics. `jumpForce` is therefore not a tunable here. The model keeps only the gating and the disarming.
- The cooldown timing (`Invoke(nameof(ResetJump), jumpCooldown)`, line 211): a deferred callback scheduled by the host. The re-arm is a separate event, `JumpCooldownElapsed`, that may arrive at any time.
- The ground raycast (`CheckGrounded`, lines 168-172): a physics query. Its answer is an argument of every frame.
- Enabling and disabling camera components on a style change (lines 189-194): a rendering side effect, which the component itself leaves incomplete.
- Cursor locking, input-map creation and the enable/disable plumbing (lines 77-93).
- Input phases: only the change-camera callback checks for the performed phase. The other callbacks act on every phase they are delivered in, so each delivered callback is one event.
- Top-down style: the code gives it no behaviour of its own. No movement facing or look update happens in it, and nothing signals that it is unsupported. The model follows the code.
- Crouch interpolation parameter: the interpolation primitive clamps its parameter to [0,1] itself, so a progress above 1 lands exactly on the target.
- IEEE single-precision rounding: scalars are exact reals. The engine's deliberate tolerance in vector equality (`!=` at line 121 counts vectors less than 1e-5 apart as equal) is modelled: see `Vectors.Differs`.
- Controller.SettleCrouch: assumes one fixed, positive frame time and a positive crouch rate. With a rate of 0 the interpolation never ends, and the method does not cover that case or varying frame times.
- The other locomotion components (character-controller and first-/third-person variants) and the camera-style label are not part of this model.

=== FILE: camera_style.dfy ===
/** The controller's camera styles and the order in which the change-camera
    action cycles through them. */
module CameraStyles {

  /** Declared in this order, so their integer values are 0, 1, 2, 3. */
  datatype CameraStyle = FirstPerson | BasicTP | CombatTP | TopdownTP

  /** Number of declared styles, the length of the enum's value list. */
  const StyleCount: nat := 4

  /** The style set when the component wakes up. */
  const InitialStyle: CameraStyle := BasicTP

  /** The enum's underlying integer value. */
  function Index(s: CameraStyle): (i: nat)
    ensures i < StyleCount
  {
    match s
    case FirstPerson => 0
    case BasicTP => 1
    case CombatTP => 2
    case TopdownTP => 3
  }

  /** The style whose underlying value is `i`. */
  function FromIndex(i: nat): (s: CameraStyle)
    requires i < StyleCount
    ensures Index(s) == i
  {
    if i == 0 then FirstPerson
    else if i == 1 then BasicTP
    else if i == 2 then CombatTP
    else TopdownTP
  }

  /** Distinct styles have distinct values, so a style is determined by its value. */
  lemma IndexInjective(s: CameraStyle, t: CameraStyle)
    requires Index(s) == Index(t)
    ensures s == t
  {
  }

  /** One change of style: increment the underlying value, and when it has
      reached the number of styles, reset it to the first one. */
  function Next(s: CameraStyle): (r: CameraStyle)
    ensures Index(r) == (Index(s) + 1) % StyleCount
    ensures r != s
  {
    var i := Index(s) + 1;
    if i == StyleCount then FromIndex(0) else FromIndex(i)
  }

  /** The style reached after `n` changes. */
  function Cycle(s: CameraStyle, n: nat): CameraStyle
  {
    if n == 0 then s else Next(Cycle(s, n - 1))
  }

  /** After `n` changes the style's value has advanced by `n` modulo the number of styles. */
  lemma {:induction false} CycleIndex(s: CameraStyle, n: nat)
    ensures Index(Cycle(s, n)) == (Index(s) + n) % StyleCount
  {
    if n > 0 {
      CycleIndex(s, n - 1);
      var k := Index(s) + n - 1;
      assert Index(Cycle(s, n)) == (k % StyleCount + 1) % StyleCount;
      ModSucc(k);
    }
  }

  lemma ModSucc(k: nat)
    ensures (k % StyleCount + 1) % StyleCount == (k + 1) % StyleCount
  {
  }

  /** Every fourth change brings the style back where it started. */
  lemma {:induction false} CycleWraps(s: CameraStyle, n: nat)
    ensures Cycle(s, n + StyleCount) == Cycle(s, n)
    ensures Cycle(s, StyleCount) == s
  {
    CycleIndex(s, n + StyleCount);
    CycleIndex(s, n);
    assert (Index(s) + n + StyleCount) % StyleCount == (Index(s) + n) % StyleCount;
    IndexInjective(Cycle(s, n + StyleCount), Cycle(s, n));
    CycleIndex(s, StyleCount);
    IndexInjective(Cycle(s, StyleCount), s);
  }

  /** Starting from the initial style, `n` changes land on value `(1 + n) mod 4`;
      in particular the change after the top-down style is first person. */
  lemma CycleFromInitial(n: nat)
    ensures Cycle(InitialStyle, n) == FromIndex((1 + n) % StyleCount)
    ensures Next(TopdownTP) == FirstPerson
  {
    CycleIndex(InitialStyle, n);
    IndexInjective(Cycle(InitialStyle, n), FromIndex((1 + n) % StyleCount));
  }

  /** Changing once and then `n` more times is changing `n + 1` times. */
  lemma {:induction false} CycleShift(s: CameraStyle, n: nat)
    ensures Cycle(Next(s), n) == Cycle(s, n + 1)
  {
    if n > 0 {
      CycleShift(s, n - 1);
    }
  }
}

=== FILE: controller.dfy ===
/** The rigid-body combination controller: its tunables, its mutable state, and one
    pure transition per input callback and per frame helper. Engine objects
    (rigid body, orientation transform, ground ray) appear only as the values they
    hand to, or receive from, the controller. */
module Controller {
  import opened Numerics
  import opened Vectors
  import opened CameraStyles

  /** A frame or physics-step duration; the engine never reports a negative one. */
  type Seconds = r: real | r >= 0.0

  /** The inspector tunables the modelled logic reads. */
  datatype Config = Config(
    speed: real,
    sprintSpeed: real,
    crouchSpeed: real,
    xSensitivity: real,
    ySensitivity: real,
    minClampX: real,
    maxClampX: real)

  /** The values the component's field initialisers give. */
  const DefaultConfig: Config := Config(5.0, 7.0, 0.5, 30.0, 30.0, -80.0, 80.0)

  /** Collider heights the crouch interpolation aims at. */
  const CrouchedHeight: real := 1.0
  const StandingHeight: real := 2.0

  /** The controller's mutable state, plus the collider height it drives. */
  datatype PlayerState = PlayerState(
    currentStyle: CameraStyle,
    readyToJump: bool,
    isGrounded: bool,
    isSprinting: bool,
    isCrouching: bool,
    lerpCrouch: bool,
    crouchTimer: real,
    colliderHeight: real,
    xRotation: real,
    camMovement: Vector2,
    playerMoveDirection: Vector3)

  /** The state after the field initialisers and the wake-up callback; the collider
      height is whatever the scene gave the capsule. */
  function Awake(height: real): (s: PlayerState)
    ensures s.currentStyle == InitialStyle
    ensures s.readyToJump && s.isGrounded
    ensures !s.isSprinting && !s.isCrouching
    ensures !s.lerpCrouch && s.crouchTimer == 0.0
    ensures s.colliderHeight == height
    ensures s.xRotation == 0.0
    ensures s.camMovement == Zero2 && s.playerMoveDirection == Zero3
  {
    PlayerState(InitialStyle, true, true, false, false, false, 0.0, height, 0.0, Zero2, Zero3)
  }

  /** The phase an input-system callback is delivered in. */
  datatype InputPhase = Started | Performed | Canceled

  // ---------------------------------------------------------------- input callbacks

  /** Change camera: only the performed phase advances the style, wrapping after
      the last one; nothing else in the state changes. */
  function OnChangeCamera(s: PlayerState, phase: InputPhase): (r: PlayerState)
    ensures phase == Performed ==> Index(r.currentStyle) == (Index(s.currentStyle) + 1) % StyleCount
    ensures phase != Performed ==> r == s
    ensures r == s.(currentStyle := r.currentStyle)
  {
    if phase == Performed then s.(currentStyle := Next(s.currentStyle)) else s
  }

  /** The result of a jump request: the new state and whether the impulse fired. */
  datatype JumpOutcome = JumpOutcome(state: PlayerState, fired: bool)

  /** Jump: fires exactly when grounded and ready, and firing disarms the gate. */
  function OnJump(s: PlayerState): (r: JumpOutcome)
    ensures r.fired <==> s.isGrounded && s.readyToJump
    ensures r.fired ==> r.state == s.(readyToJump := false)
    ensures !r.fired ==> r.state == s
    ensures !r.state.readyToJump || !r.state.isGrounded
  {
    if s.isGrounded && s.readyToJump then JumpOutcome(s.(readyToJump := false), true)
    else JumpOutcome(s, false)
  }

  /** The deferred re-arm of the jump gate. */
  function ResetJump(s: PlayerState): (r: PlayerState)
    ensures r.readyToJump
    ensures r == s.(readyToJump := r.readyToJump)
  {
    s.(readyToJump := true)
  }

  /** Crouch: flip the crouch flag and restart the height interpolation. */
  function OnCrouch(s: PlayerState): (r: PlayerState)
    ensures r.isCrouching != s.isCrouching
    ensures r.lerpCrouch && r.crouchTimer == 0.0
    ensures r == s.(isCrouching := r.isCrouching, lerpCrouch := true, crouchTimer := 0.0)
  {
    s.(isCrouching := !s.isCrouching, crouchTimer := 0.0, lerpCrouch := true)
  }

  /** Sprint: flip the sprint flag. */
  function OnSprint(s: PlayerState): (r: PlayerState)
    ensures r.isSprinting != s.isSprinting
    ensures r == s.(isSprinting := r.isSprinting)
  {
    s.(isSprinting := !s.isSprinting)
  }

  /** Movement: buffer the stick on the horizontal plane, x to x and y to z. */
  function OnMovement(s: PlayerState, stick: Vector2): (r: PlayerState)
    ensures r.playerMoveDirection.y == 0.0
    ensures r.playerMoveDirection.x == stick.x && r.playerMoveDirection.z == stick.y
    ensures r == s.(playerMoveDirection := r.playerMoveDirection)
  {
    var moveDir := Zero3.(x := stick.x).(z := stick.y);
    s.(playerMoveDirection := moveDir)
  }

  /** Look, as the callback is written: it only re-aims the orientation transform in
      the third-person styles and never stores the stick, so the state the look
      step reads is left as it was. */
  function OnLookAsWritten(s: PlayerState, stick: Vector2): (r: PlayerState)
    ensures r == s
  {
    s
  }

  /** Look, as the sibling third-person controller writes it: buffer the stick for
      the next look step. */
  function OnLook(s: PlayerState, stick: Vector2): (r: PlayerState)
    ensures r.camMovement == stick
    ensures r == s.(camMovement := r.camMovement)
  {
    s.(camMovement := stick)
  }

  // ---------------------------------------------------------------- per-frame helpers

  /** The height the crouch interpolation is heading for. */
  function CrouchTarget(s: PlayerState): real {
    if s.isCrouching then CrouchedHeight else StandingHeight
  }

  /** One frame of the crouch interpolation. While it runs, the timer accumulates the
      frame time, the scaled progress drives a clamped interpolation of the height
      toward the target, and progress beyond 1 ends it and clears the timer. */
  function ProcessCrouch(cfg: Config, s: PlayerState, dt: Seconds): (r: PlayerState)
    ensures !s.lerpCrouch ==> r == s
    ensures s.lerpCrouch && (s.crouchTimer + dt) * cfg.crouchSpeed > 1.0 ==>
              !r.lerpCrouch && r.crouchTimer == 0.0 && r.colliderHeight == CrouchTarget(s)
    ensures s.lerpCrouch && (s.crouchTimer + dt) * cfg.crouchSpeed <= 1.0 ==>
              r.lerpCrouch && r.crouchTimer == s.crouchTimer + dt
    ensures Min(s.colliderHeight, CrouchTarget(s)) <= r.colliderHeight <= Max(s.colliderHeight, CrouchTarget(s))
    ensures Abs(CrouchTarget(s) - r.colliderHeight) <= Abs(CrouchTarget(s) - s.colliderHeight)
    ensures r == s.(lerpCrouch := r.lerpCrouch, crouchTimer := r.crouchTimer, colliderHeight := r.colliderHeight)
  {
    if !s.lerpCrouch then s
    else
      var timer := s.crouchTimer + dt;
      var p := timer * cfg.crouchSpeed;
      var height := Lerp(s.colliderHeight, CrouchTarget(s), p);
      if p > 1.0 then s.(crouchTimer := 0.0, lerpCrouch := false, colliderHeight := height)
      else s.(crouchTimer := timer, colliderHeight := height)
  }

  /** The pitch the look step computes before clamping. */
  function RawPitch(cfg: Config, s: PlayerState, dt: Seconds): real {
    s.xRotation - (s.camMovement.y * dt) * cfg.ySensitivity
  }

  /** One first-person look step, pitch part: the buffered vertical look input turns
      the pitch, which is then clamped to the configured range. */
  function ProcessLook(cfg: Config, s: PlayerState, dt: Seconds): (r: PlayerState)
    ensures cfg.minClampX <= cfg.maxClampX ==> cfg.minClampX <= r.xRotation <= cfg.maxClampX
    ensures cfg.minClampX <= RawPitch(cfg, s, dt) <= cfg.maxClampX ==> r.xRotation == RawPitch(cfg, s, dt)
    ensures r == s.(xRotation := r.xRotation)
  {
    s.(xRotation := Clamp(RawPitch(cfg, s, dt), cfg.minClampX, cfg.maxClampX))
  }

  /** The horizontal speed in use. */
  function MovementSpeed(cfg: Config, s: PlayerState): real {
    if s.isSprinting then cfg.sprintSpeed else cfg.speed
  }

  /** The buffered input expressed in the orientation frame: forward scaled by the
      input's z, plus right scaled by its x. */
  function Heading(forward: Vector3, right: Vector3, move: Vector3): Vector3 {
    Add(Scale(forward, move.z), Scale(right, move.x))
  }

  /** One movement step, speed and velocity part: the horizontal components of the
      body's velocity are overwritten, and its vertical component is kept. An input
      the engine's vector comparison takes for zero gives no horizontal velocity. */
  function ProcessMovement(cfg: Config, s: PlayerState, forward: Vector3, right: Vector3, velocity: Vector3): (v: Vector3)
    ensures v.y == velocity.y
    ensures SqrMagnitude(s.playerMoveDirection) < Epsilon * Epsilon ==> v.x == 0.0 && v.z == 0.0
    ensures s.playerMoveDirection.x == 0.0 && s.playerMoveDirection.z == 0.0 ==> v.x == 0.0 && v.z == 0.0
  {
    var movementSpeed := MovementSpeed(cfg, s);
    assert Vector3(s.playerMoveDirection.x - 0.0, s.playerMoveDirection.y - 0.0, s.playerMoveDirection.z - 0.0)
           == s.playerMoveDirection;
    var moveVectorDir :=
      if Differs(s.playerMoveDirection, Zero3) then Scale(Heading(forward, right, s.playerMoveDirection), movementSpeed)
      else Zero3;
    Vector3(moveVectorDir.x, velocity.y, moveVectorDir.z)
  }

  /** What a physics step hands back: the new state and the velocity written to the body. */
  datatype FixedOutcome = FixedOutcome(state: PlayerState, velocity: Vector3)

  /** The physics-step dispatch: look only in first person, then move. */
  function FixedUpdate(cfg: Config, s: PlayerState, dt: Seconds, forward: Vector3, right: Vector3, velocity: Vector3): (r: FixedOutcome)
    ensures s.currentStyle != FirstPerson ==> r.state == s
    ensures r.state == s.(xRotation := r.state.xRotation)
    ensures cfg.minClampX <= s.xRotation <= cfg.maxClampX ==>
              cfg.minClampX <= r.state.xRotation <= cfg.maxClampX
    ensures r.velocity.y == velocity.y
    ensures s.currentStyle == FirstPerson && cfg.minClampX <= cfg.maxClampX ==>
              cfg.minClampX <= r.state.xRotation <= cfg.maxClampX
    ensures r.velocity == ProcessMovement(cfg, s, forward, right, velocity)
  {
    var next := if s.currentStyle == FirstPerson then ProcessLook(cfg, s, dt) else s;
    FixedOutcome(next, ProcessMovement(cfg, next, forward, right, velocity))
  }

  /** The frame dispatch: take the ground probe's answer, then advance the crouch. */
  function Update(cfg: Config, s: PlayerState, dt: Seconds, grounded: bool): (r: PlayerState)
    ensures r.isGrounded == grounded
    ensures r == s.(isGrounded := grounded, lerpCrouch := r.lerpCrouch, crouchTimer := r.crouchTimer,
                    colliderHeight := r.colliderHeight)
    ensures !s.lerpCrouch ==> r == s.(isGrounded := grounded)
    ensures s.lerpCrouch && (s.crouchTimer + dt) * cfg.crouchSpeed > 1.0 ==>
              !r.lerpCrouch && r.crouchTimer == 0.0 && r.colliderHeight == CrouchTarget(s)
    ensures s.lerpCrouch && (s.crouchTimer + dt) * cfg.crouchSpeed <= 1.0 ==>
              r.lerpCrouch && r.crouchTimer == s.crouchTimer + dt
  {
    ProcessCrouch(cfg, s.(isGrounded := grounded), dt)
  }

  // ---------------------------------------------------------------- reachable-state invariant

  /** The crouch part of the invariant: the crouch timer is never negative, is zero
      whenever no interpolation runs and keeps the scaled progress at most 1 while
      one does. */
  predicate CrouchConsistent(cfg: Config, s: PlayerState) {
    && s.crouchTimer >= 0.0
    && (!s.lerpCrouch ==> s.crouchTimer == 0.0)
    && (s.lerpCrouch ==> s.crouchTimer * cfg.crouchSpeed <= 1.0)
  }

  /** What holds of every state the controller reaches: the crouch part above; the
      buffered move input lies in the horizontal plane; and the pitch lies in its
      range. */
  predicate Consistent(cfg: Config, s: PlayerState) {
    && CrouchConsistent(cfg, s)
    && s.playerMoveDirection.y == 0.0
    && cfg.minClampX <= s.xRotation <= cfg.maxClampX
  }

  // ---------------------------------------------------------------- properties of the callbacks

  /** The jump gate: once fired it stays shut to further requests, and only the
      re-arm opens it again, after which a grounded request fires. */
  lemma JumpGate(s: PlayerState)
    ensures OnJump(s).fired ==> !OnJump(OnJump(s).state).fired
    ensures !OnJump(s).fired ==> OnJump(s).state == s
    ensures OnJump(ResetJump(OnJump(s).state)).fired <==> s.isGrounded
  {
  }

  /** Re-arming twice is the same as re-arming once. */
  lemma ResetJumpIdempotent(s: PlayerState)
    ensures ResetJump(ResetJump(s)) == ResetJump(s)
  {
  }

  /** Two crouch toggles restore the crouch flag and leave a freshly restarted
      interpolation. */
  lemma CrouchTwice(s: PlayerState)
    ensures OnCrouch(OnCrouch(s)).isCrouching == s.isCrouching
    ensures OnCrouch(OnCrouch(s)) == s.(crouchTimer := 0.0, lerpCrouch := true)
  {
  }

  /** Sprint toggling is an involution. */
  lemma SprintInvolution(s: PlayerState)
    ensures OnSprint(OnSprint(s)) == s
  {
  }

  /** The move input is a single slot: the latest reading replaces the earlier one. */
  lemma LastMovementWins(s: PlayerState, a: Vector2, b: Vector2)
    ensures OnMovement(OnMovement(s, a), b) == OnMovement(s, b)
  {
  }

  /** The movement step against the plain formula "heading times selected speed,
      old vertical": they agree for every input the engine's comparison does not
      take for zero, and below the tolerance the horizontal velocity is zero. The
      guard only matters for inputs shorter than the tolerance. */
  lemma MovementMatchesFormula(cfg: Config, s: PlayerState, forward: Vector3, right: Vector3, velocity: Vector3)
    ensures var h := Scale(Heading(forward, right, s.playerMoveDirection), MovementSpeed(cfg, s));
            ProcessMovement(cfg, s, forward, right, velocity)
            == if SqrMagnitude(s.playerMoveDirection) >= Epsilon * Epsilon then Vector3(h.x, velocity.y, h.z)
               else Vector3(0.0, velocity.y, 0.0)
    ensures s.playerMoveDirection == Zero3 ==>
            ProcessMovement(cfg, s, forward, right, velocity) == Vector3(0.0, velocity.y, 0.0)
  {
    assert Vector3(s.playerMoveDirection.x - 0.0, s.playerMoveDirection.y - 0.0, s.playerMoveDirection.z - 0.0)
           == s.playerMoveDirection;
  }

  /** The old horizontal velocity is discarded: only its vertical component matters. */
  lemma MovementForgetsHorizontal(cfg: Config, s: PlayerState, forward: Vector3, right: Vector3, v1: Vector3, v2: Vector3)
    requires v1.y == v2.y
    ensures ProcessMovement(cfg, s, forward, right, v1) == ProcessMovement(cfg, s, forward, right, v2)
  {
  }

  /** Sprinting selects the sprint speed and walking the walk speed: with the same
      input, the sprinting velocity is the walking one scaled by their ratio. */
  lemma SprintScalesVelocity(cfg: Config, s: PlayerState, forward: Vector3, right: Vector3, velocity: Vector3)
    requires cfg.speed != 0.0
    ensures var walk := ProcessMovement(cfg, s.(isSprinting := false), forward, right, velocity);
            var run := ProcessMovement(cfg, s.(isSprinting := true), forward, right, velocity);
            && run.x == walk.x * (cfg.sprintSpeed / cfg.speed)
            && run.z == walk.z * (cfg.sprintSpeed / cfg.speed)
            && run.y == walk.y
  {
    MovementMatchesFormula(cfg, s.(isSprinting := false), forward, right, velocity);
    MovementMatchesFormula(cfg, s.(isSprinting := true), forward, right, velocity);
    if SqrMagnitude(s.playerMoveDirection) >= Epsilon * Epsilon {
      var h := Heading(forward, right, s.playerMoveDirection);
      var k := cfg.sprintSpeed / cfg.speed;
      assert cfg.speed * k == cfg.sprintSpeed;
      assert h.x * cfg.sprintSpeed == (h.x * cfg.speed) * k;
      assert h.z * cfg.sprintSpeed == (h.z * cfg.speed) * k;
    }
  }

  /** The heading of a buffered stick reading, component by component. */
  lemma HeadingOfStick(forward: Vector3, right: Vector3, stick: Vector2)
    ensures Heading(forward, right, Vector3(stick.x, 0.0, stick.y)).x == forward.x * stick.y + right.x * stick.x
    ensures Heading(forward, right, Vector3(stick.x, 0.0, stick.y)).z == forward.z * stick.y + right.z * stick.x
  {
  }

  /** The squared length of a buffered stick reading is the stick's own. */
  lemma StickMagnitude(stick: Vector2)
    ensures SqrMagnitude(Vector3(stick.x, 0.0, stick.y)) == stick.x * stick.x + stick.y * stick.y
  {
  }

  /** End to end: a stick reading at least as long as the engine's tolerance drives
      the orientation's forward axis with its y and the right axis with its x, at the
      selected speed; a shorter one leaves the body without horizontal velocity. The
      vertical velocity is kept either way. */
  lemma MoveFollowsStick(cfg: Config, s: PlayerState, stick: Vector2, forward: Vector3, right: Vector3, velocity: Vector3)
    ensures var v := ProcessMovement(cfg, OnMovement(s, stick), forward, right, velocity);
            && (stick.x * stick.x + stick.y * stick.y >= Epsilon * Epsilon ==>
                  && v.x == (forward.x * stick.y + right.x * stick.x) * MovementSpeed(cfg, s)
                  && v.z == (forward.z * stick.y + right.z * stick.x) * MovementSpeed(cfg, s))
            && (stick.x * stick.x + stick.y * stick.y < Epsilon * Epsilon ==> v.x == 0.0 && v.z == 0.0)
            && v.y == velocity.y
  {
    var m := OnMovement(s, stick);
    assert m.playerMoveDirection == Vector3(stick.x, 0.0, stick.y);
    HeadingOfStick(forward, right, stick);
    StickMagnitude(stick);
    MovementMatchesFormula(cfg, m, forward, right, velocity);
  }

  /** With the look input buffered, a first-person look step turns the pitch against
      the stick's y, by sensitivity times step time, within the clamp. */
  lemma LookFollowsStick(cfg: Config, s: PlayerState, stick: Vector2, dt: Seconds)
    ensures ProcessLook(cfg, OnLook(s, stick), dt).xRotation
            == Clamp(s.xRotation - (stick.y * dt) * cfg.ySensitivity, cfg.minClampX, cfg.maxClampX)
  {
    assert RawPitch(cfg, OnLook(s, stick), dt) == s.xRotation - (stick.y * dt) * cfg.ySensitivity;
  }

  /** With no look input buffered, the look step leaves an in-range pitch where it is. */
  lemma LookAtRest(cfg: Config, s: PlayerState, dt: Seconds)
    requires s.camMovement == Zero2
    requires cfg.minClampX <= s.xRotation <= cfg.maxClampX
    ensures ProcessLook(cfg, s, dt) == s
  {
  }

  /** Running frames of a fixed positive length after a crouch toggle: the
      interpolation ends after finitely many frames, with its timer cleared and
      the collider exactly at the target height of the unchanged crouch flag. */
  method SettleCrouch(cfg: Config, s: PlayerState, dt: Seconds) returns (r: PlayerState, frames: nat)
    requires cfg.crouchSpeed > 0.0 && dt > 0.0
    requires CrouchConsistent(cfg, s)
    ensures !r.lerpCrouch && r.crouchTimer == 0.0
    ensures r.isCrouching == s.isCrouching
    ensures s.lerpCrouch ==> frames >= 1 && r.colliderHeight == CrouchTarget(s)
    ensures !s.lerpCrouch ==> frames == 0 && r == s
  {
    var step := dt * cfg.crouchSpeed;
    r := s;
    frames := 0;
    while r.lerpCrouch
      invariant r.isCrouching == s.isCrouching
      invariant r.crouchTimer >= 0.0
      invariant r.lerpCrouch ==> r.crouchTimer * cfg.crouchSpeed <= 1.0
      invariant !r.lerpCrouch ==> r.crouchTimer == 0.0
      invariant s.lerpCrouch && !r.lerpCrouch ==> frames >= 1 && r.colliderHeight == CrouchTarget(s)
      invariant !s.lerpCrouch ==> frames == 0 && r == s
      decreases if r.lerpCrouch then RemainingFrames(r.crouchTimer * cfg.crouchSpeed, step) else 0
    {
      var before := r;
      r := ProcessCrouch(cfg, r, dt);
      frames := frames + 1;
      if r.lerpCrouch {
        assert r.crouchTimer * cfg.crouchSpeed == before.crouchTimer * cfg.crouchSpeed + step;
        RemainingFramesShrinks(before.crouchTimer * cfg.crouchSpeed, step);
      }
    }
  }

  /** How many more steps of size `step` scaled progress `p` can take before it exceeds 1. */
  function RemainingFrames(p: real, step: real): nat
    requires step > 0.0
  {
    if p > 1.0 then 0 else ((1.0 - p) / step).Floor + 1
  }

  lemma RemainingFramesShrinks(p: real, step: real)
    requires step > 0.0 && p + step <= 1.0
    ensures RemainingFrames(p + step, step) < RemainingFrames(p, step)
  {
    var m := (1.0 - p) / step;
    assert m * step == 1.0 - p;
    var n := (1.0 - (p + step)) / step;
    assert n * step == 1.0 - (p + step);
    var d := n - (m - 1.0);
    assert d * step == 0.0;
    assert d > 0.0 ==> d * step > 0.0;
    assert d < 0.0 ==> d * step < 0.0;
    assert n == m - 1.0;
    assert (m - 1.0).Floor == m.Floor - 1;
  }
}

=== FILE: numerics.dfy ===
/** Scalar helpers of the game engine's math library, on exact reals. */
module Numerics {

  function Min(a: real, b: real): real { if a <= b then a else b }

  function Max(a: real, b: real): real { if a <= b then b else a }

  function Abs(a: real): real { if a < 0.0 then -a else a }

  /** The engine's clamp: below `min` gives `min`, otherwise above `max` gives `max`.
      When `min > max` the first test wins, exactly as the engine's code reads. */
  function Clamp(v: real, min: real, max: real): (r: real)
    ensures min <= max ==> min <= r <= max
    ensures min <= v <= max ==> r == v
    ensures r == v || r == min || r == max
  {
    if v < min then min
    else if v > max then max
    else v
  }

  /** Clamp to the unit interval, used by `Lerp` for its parameter. */
  function Clamp01(t: real): (r: real)
    ensures 0.0 <= r <= 1.0
    ensures 0.0 <= t <= 1.0 ==> r == t
    ensures t >= 1.0 ==> r == 1.0
    ensures t <= 0.0 ==> r == 0.0
  {
    Clamp(t, 0.0, 1.0)
  }

  /** Linear interpolation from `a` to `b` whose parameter is first clamped to [0,1]. */
  function Lerp(a: real, b: real, t: real): (r: real)
    ensures t <= 0.0 ==> r == a
    ensures t >= 1.0 ==> r == b
    ensures Min(a, b) <= r <= Max(a, b)
    ensures Abs(b - r) <= Abs(b - a)
  {
    var c := Clamp01(t);
    FractionBetween(b - a, c);
    a + (b - a) * c
  }

  /** A fraction of `d` lies between 0 and `d`. */
  lemma FractionBetween(d: real, c: real)
    requires 0.0 <= c <= 1.0
    ensures Min(0.0, d) <= d * c <= Max(0.0, d)
  {
    if d >= 0.0 {
      assert d * c <= d * 1.0;
    } else {
      assert d * c >= d * 1.0;
    }
  }
}

=== FILE: trace.dfy ===
/** The controller driven by the engine: an interleaving of input callbacks, frame
    updates and physics steps, and what holds across any such interleaving. */
module Trace {
  import opened Numerics
  import opened Vectors
  import opened CameraStyles
  import opened Controller

  /** One input callback delivered by the input system. The jump re-arm, which the
      component schedules for itself after the cooldown, is delivered here as an
      event of its own. */
  datatype InputEvent =
    | ChangeCamera(phase: InputPhase)
    | Jump
    | JumpCooldownElapsed
    | Crouch
    | Sprint
    | Movement(moveStick: Vector2)
    | Look(lookStick: Vector2)

  /** One thing the engine does to the component: a callback, a frame update with
      the ground probe's answer, or a physics step with the orientation basis and
      the body's current velocity. */
  datatype Tick =
    | Input(event: InputEvent)
    | Frame(frameTime: Seconds, grounded: bool)
    | PhysicsStep(stepTime: Seconds, forward: Vector3, right: Vector3, velocity: Vector3)

  /** Which look callback the component runs: the one in its source, which drops the
      stick, or one that stores it. */
  datatype LookCallback = AsWritten | Corrected

  function Handle(lc: LookCallback, s: PlayerState, e: InputEvent): PlayerState {
    match e
    case ChangeCamera(phase) => OnChangeCamera(s, phase)
    case Jump => OnJump(s).state
    case JumpCooldownElapsed => ResetJump(s)
    case Crouch => OnCrouch(s)
    case Sprint => OnSprint(s)
    case Movement(stick) => OnMovement(s, stick)
    case Look(stick) => if lc == AsWritten then OnLookAsWritten(s, stick) else OnLook(s, stick)
  }

  function Step(cfg: Config, lc: LookCallback, s: PlayerState, t: Tick): PlayerState {
    match t
    case Input(e) => Handle(lc, s, e)
    case Frame(dt, grounded) => Update(cfg, s, dt, grounded)
    case PhysicsStep(dt, forward, right, velocity) => FixedUpdate(cfg, s, dt, forward, right, velocity).state
  }

  /** The state after the ticks, in order. */
  function Run(cfg: Config, lc: LookCallback, s: PlayerState, ts: seq<Tick>): PlayerState
    decreases |ts|
  {
    if |ts| == 0 then s else Run(cfg, lc, Step(cfg, lc, s, ts[0]), ts[1..])
  }

  /** How many jump impulses fire along the ticks. */
  function JumpsFired(cfg: Config, lc: LookCallback, s: PlayerState, ts: seq<Tick>): nat
    decreases |ts|
  {
    if |ts| == 0 then 0
    else
      var fired := if ts[0] == Input(Jump) && OnJump(s).fired then 1 else 0;
      fired + JumpsFired(cfg, lc, Step(cfg, lc, s, ts[0]), ts[1..])
  }

  /** How many performed change-camera callbacks there are. */
  function CameraChanges(ts: seq<Tick>): nat {
    if |ts| == 0 then 0
    else (if ts[0] == Input(ChangeCamera(Performed)) then 1 else 0) + CameraChanges(ts[1..])
  }

  /** How many sprint callbacks there are. */
  function SprintToggles(ts: seq<Tick>): nat {
    if |ts| == 0 then 0
    else (if ts[0] == Input(Sprint) then 1 else 0) + SprintToggles(ts[1..])
  }

  // ---------------------------------------------------------------- invariants

  /** The woken-up controller is consistent when its initial pitch of 0 is in range. */
  lemma AwakeConsistent(cfg: Config, height: real)
    requires cfg.minClampX <= 0.0 <= cfg.maxClampX
    ensures Consistent(cfg, Awake(height))
  {
  }

  lemma StepConsistent(cfg: Config, lc: LookCallback, s: PlayerState, t: Tick)
    requires Consistent(cfg, s)
    ensures Consistent(cfg, Step(cfg, lc, s, t))
  {
    match t
    case Input(e) => HandleConsistent(cfg, lc, s, e);
    case Frame(dt, grounded) => UpdateConsistent(cfg, s, dt, grounded);
    case PhysicsStep(dt, forward, right, velocity) =>
  }

  lemma HandleConsistent(cfg: Config, lc: LookCallback, s: PlayerState, e: InputEvent)
    requires Consistent(cfg, s)
    ensures Consistent(cfg, Handle(lc, s, e))
  {
  }

  lemma UpdateConsistent(cfg: Config, s: PlayerState, dt: Seconds, grounded: bool)
    requires Consistent(cfg, s)
    ensures Consistent(cfg, Update(cfg, s, dt, grounded))
  {
    var r := Update(cfg, s, dt, grounded);
    if s.lerpCrouch && (s.crouchTimer + dt) * cfg.crouchSpeed <= 1.0 {
      assert r.crouchTimer == s.crouchTimer + dt;
    }
  }

  /** Every tick keeps the controller consistent: in particular the pitch never leaves
      its range, the stored move input stays horizontal, and the crouch timer is
      zero whenever no interpolation runs. */
  lemma {:induction false} RunConsistent(cfg: Config, lc: LookCallback, s: PlayerState, ts: seq<Tick>)
    requires Consistent(cfg, s)
    ensures Consistent(cfg, Run(cfg, lc, s, ts))
    decreases |ts|
  {
    if |ts| > 0 {
      StepConsistent(cfg, lc, s, ts[0]);
      RunConsistent(cfg, lc, Step(cfg, lc, s, ts[0]), ts[1..]);
    }
  }

  /** A collider between the crouched and standing heights stays between them. */
  lemma {:induction false} RunKeepsHeight(cfg: Config, lc: LookCallback, s: PlayerState, ts: seq<Tick>)
    requires CrouchedHeight <= s.colliderHeight <= StandingHeight
    ensures CrouchedHeight <= Run(cfg, lc, s, ts).colliderHeight <= StandingHeight
    decreases |ts|
  {
    if |ts| > 0 {
      assert CrouchedHeight <= Step(cfg, lc, s, ts[0]).colliderHeight <= StandingHeight by {
        match ts[0]
        case Input(e) =>
        case Frame(dt, grounded) =>
        case PhysicsStep(dt, forward, right, velocity) =>
      }
      RunKeepsHeight(cfg, lc, Step(cfg, lc, s, ts[0]), ts[1..]);
    }
  }

  // ---------------------------------------------------------------- jump gating

  predicate NoRearm(ts: seq<Tick>) {
    forall i :: 0 <= i < |ts| ==> ts[i] != Input(JumpCooldownElapsed)
  }

  /** Without a re-arm in between, at most one jump fires, and none once the gate is
      shut; a shut gate stays shut. */
  lemma {:induction false} AtMostOneJumpPerRearm(cfg: Config, lc: LookCallback, s: PlayerState, ts: seq<Tick>)
    requires NoRearm(ts)
    ensures JumpsFired(cfg, lc, s, ts) <= (if s.readyToJump then 1 else 0)
    ensures !s.readyToJump ==> !Run(cfg, lc, s, ts).readyToJump
    decreases |ts|
  {
    if |ts| > 0 {
      var next := Step(cfg, lc, s, ts[0]);
      assert NoRearm(ts[1..]) by {
        forall i | 0 <= i < |ts| - 1
          ensures ts[1..][i] != Input(JumpCooldownElapsed)
        {
          assert ts[1..][i] == ts[i + 1];
        }
      }
      AtMostOneJumpPerRearm(cfg, lc, next, ts[1..]);
      assert ts[0] != Input(JumpCooldownElapsed);
      if ts[0] == Input(Jump) && OnJump(s).fired {
        assert !next.readyToJump;
      } else {
        assert next.readyToJump ==> s.readyToJump;
      }
    }
  }

  // ---------------------------------------------------------------- toggles and cycles

  /** Only a performed change-camera callback touches the camera style. */
  lemma StepStyle(cfg: Config, lc: LookCallback, s: PlayerState, t: Tick)
    ensures Step(cfg, lc, s, t).currentStyle
            == if t == Input(ChangeCamera(Performed)) then Next(s.currentStyle) else s.currentStyle
  {
    match t
    case Input(e) =>
    case Frame(dt, grounded) =>
    case PhysicsStep(dt, forward, right, velocity) =>
  }

  /** The camera style along the ticks is the starting style advanced once per
      performed change-camera callback. */
  lemma {:induction false} RunCameraStyle(cfg: Config, lc: LookCallback, s: PlayerState, ts: seq<Tick>)
    ensures Run(cfg, lc, s, ts).currentStyle == Cycle(s.currentStyle, CameraChanges(ts))
    decreases |ts|
  {
    if |ts| > 0 {
      var next := Step(cfg, lc, s, ts[0]);
      RunCameraStyle(cfg, lc, next, ts[1..]);
      StepStyle(cfg, lc, s, ts[0]);
      if ts[0] == Input(ChangeCamera(Performed)) {
        CycleShift(s.currentStyle, CameraChanges(ts[1..]));
      }
    }
  }

  /** From wake-up, `n` performed change-camera callbacks show style `(1 + n) mod 4`. */
  lemma CameraStyleFromAwake(cfg: Config, lc: LookCallback, height: real, ts: seq<Tick>)
    ensures Index(Run(cfg, lc, Awake(height), ts).currentStyle) == (1 + CameraChanges(ts)) % StyleCount
  {
    var s0 := Awake(height);
    assert Index(s0.currentStyle) == 1;
    RunCameraStyle(cfg, lc, s0, ts);
    CycleIndex(s0.currentStyle, CameraChanges(ts));
  }

  /** Only a sprint callback touches the sprint flag. */
  lemma StepSprint(cfg: Config, lc: LookCallback, s: PlayerState, t: Tick)
    ensures Step(cfg, lc, s, t).isSprinting == if t == Input(Sprint) then !s.isSprinting else s.isSprinting
  {
    match t
    case Input(e) =>
    case Frame(dt, grounded) =>
    case PhysicsStep(dt, forward, right, velocity) =>
  }

  /** Sprinting after the ticks is the starting flag flipped once per sprint callback. */
  lemma {:induction false} RunSprintParity(cfg: Config, lc: LookCallback, s: PlayerState, ts: seq<Tick>)
    ensures Run(cfg, lc, s, ts).isSprinting == (s.isSprinting != (SprintToggles(ts) % 2 == 1))
    decreases |ts|
  {
    if |ts| > 0 {
      var next := Step(cfg, lc, s, ts[0]);
      RunSprintParity(cfg, lc, next, ts[1..]);
      StepSprint(cfg, lc, s, ts[0]);
    }
  }

  // ---------------------------------------------------------------- the look callback as written

  /** As written, the look buffer is never filled, so whatever the look input and
      however long the first-person look steps run, the pitch never moves. */
  lemma {:induction false} PitchFrozenAsWritten(cfg: Config, s: PlayerState, ts: seq<Tick>)
    requires s.camMovement == Zero2
    requires cfg.minClampX <= s.xRotation <= cfg.maxClampX
    ensures Run(cfg, AsWritten, s, ts).xRotation == s.xRotation
    ensures Run(cfg, AsWritten, s, ts).camMovement == Zero2
    decreases |ts|
  {
    if |ts| > 0 {
      var next := Step(cfg, AsWritten, s, ts[0]);
      if ts[0].PhysicsStep? && s.currentStyle == FirstPerson {
        LookAtRest(cfg, s, ts[0].stepTime);
      }
      assert next.camMovement == Zero2 && next.xRotation == s.xRotation;
      PitchFrozenAsWritten(cfg, next, ts[1..]);
    }
  }

  /** Three camera changes from wake-up reach first person; then one upward stick
      reading and one 0.02 s physics step. */
  const LookScenario: seq<Tick> := [
    Input(ChangeCamera(Performed)),
    Input(ChangeCamera(Performed)),
    Input(ChangeCamera(Performed)),
    Input(Look(Vector2(0.0, 1.0))),
    PhysicsStep(0.02, Vector3(0.0, 0.0, 1.0), Vector3(1.0, 0.0, 0.0), Zero3)]

  /** The scenario with the default tunables, as written: the pitch stays at 0. */
  lemma LookScenarioAsWritten()
    ensures Run(DefaultConfig, AsWritten, Awake(2.0), LookScenario).xRotation == 0.0
  {
    PitchFrozenAsWritten(DefaultConfig, Awake(2.0), LookScenario);
  }

  /** The scenario with the default tunables and the stick stored: the pitch tilts
      by 1 * 0.02 * 30 = 0.6 degrees. */
  lemma LookScenarioCorrected()
    ensures Run(DefaultConfig, Corrected, Awake(2.0), LookScenario).xRotation == -0.6
  {
    var c, lc, ts := DefaultConfig, Corrected, LookScenario;
    var s0 := Awake(2.0);
    var s3 := s0.(currentStyle := FirstPerson);
    var s4 := s3.(camMovement := Vector2(0.0, 1.0));
    ScenarioStyleSteps(s0);
    ScenarioLookSteps(s3);
    RunFrom(c, lc, s0, ts, 0);
    RunFrom(c, lc, s0.(currentStyle := CombatTP), ts, 1);
    RunFrom(c, lc, s0.(currentStyle := TopdownTP), ts, 2);
    RunFrom(c, lc, s3, ts, 3);
    RunFrom(c, lc, s4, ts, 4);
    assert ts[5..] == [];
  }

  /** The scenario's three change-camera ticks take Basic_TP through Combat_TP and
      Topdown_TP to first person, touching nothing else. */
  lemma ScenarioStyleSteps(s0: PlayerState)
    requires s0.currentStyle == BasicTP
    ensures Step(DefaultConfig, Corrected, s0, LookScenario[0]) == s0.(currentStyle := CombatTP)
    ensures Step(DefaultConfig, Corrected, s0.(currentStyle := CombatTP), LookScenario[1])
            == s0.(currentStyle := TopdownTP)
    ensures Step(DefaultConfig, Corrected, s0.(currentStyle := TopdownTP), LookScenario[2])
            == s0.(currentStyle := FirstPerson)
  {
  }

  /** In first person at pitch 0, the scenario's look tick stores the stick and its
      physics step tilts the pitch to -0.6. */
  lemma ScenarioLookSteps(s3: PlayerState)
    requires s3.currentStyle == FirstPerson && s3.xRotation == 0.0
    ensures Step(DefaultConfig, Corrected, s3, LookScenario[3]) == s3.(camMovement := Vector2(0.0, 1.0))
    ensures Step(DefaultConfig, Corrected, s3.(camMovement := Vector2(0.0, 1.0)), LookScenario[4])
            == s3.(camMovement := Vector2(0.0, 1.0), xRotation := -0.6)
  {
  }

  /** Running from position `k` is one step and then running from position `k + 1`. */
  lemma RunFrom(cfg: Config, lc: LookCallback, s: PlayerState, ts: seq<Tick>, k: nat)
    requires k < |ts|
    ensures Run(cfg, lc, s, ts[k..]) == Run(cfg, lc, Step(cfg, lc, s, ts[k]), ts[k + 1..])
  {
    assert ts[k..][0] == ts[k];
    assert ts[k..][1..] == ts[k + 1..];
  }
}

=== FILE: vectors.dfy ===
/** Two- and three-component vectors of the game engine, on exact reals. */
module Vectors {

  /** A stick reading: `x` is left/right, `y` is down/up. */
  datatype Vector2 = Vector2(x: real, y: real)

  /** A world-space vector; `y` is the vertical axis. */
  datatype Vector3 = Vector3(x: real, y: real, z: real)

  const Zero2: Vector2 := Vector2(0.0, 0.0)

  const Zero3: Vector3 := Vector3(0.0, 0.0, 0.0)

  function Add(a: Vector3, b: Vector3): Vector3 {
    Vector3(a.x + b.x, a.y + b.y, a.z + b.z)
  }

  function Scale(a: Vector3, k: real): Vector3 {
    Vector3(a.x * k, a.y * k, a.z * k)
  }

  function SqrMagnitude(a: Vector3): real {
    a.x * a.x + a.y * a.y + a.z * a.z
  }

  /** The engine's vector equality tolerance: vectors closer than this count as equal. */
  const Epsilon: real := 0.00001

  /** The engine's `!=` on vectors: the squared distance is at least the squared
      tolerance. */
  predicate Differs(a: Vector3, b: Vector3) {
    SqrMagnitude(Vector3(a.x - b.x, a.y - b.y, a.z - b.z)) >= Epsilon * Epsilon
  }
}
